=== FILE: README.md ===
# Survey Test Helper — a Dafny model of its decision core

Survey Test Helper is a browser user script that answers LimeSurvey questions with plausible
dummy values so that a tester can walk through a survey quickly. This project models the
script's decision core over an abstract snapshot of the page and proves properties of it:

- **Classifier**: the widget kind from the class tokens of the question container, and the
  topic of the question from keywords in its text.
- **Override store**: `force` / `avoid` command markers (`"Q1,1,2|Q2,3"`), parsed into one
  table per kind and merged with the table kept in session storage. It also covers the
  bookkeeping `initStorage` does with the run flags and the attempt count.
- **Responder**: the value generators for numeric and free-text inputs, and the constrained
  random choice for radio lists, dropdowns, array grids and multiple-choice checkboxes,
  together with the clearing that precedes them.
- **Dispatch**: key bindings, navigation buttons, auto-run and the validation-dialog handler,
  producing abstract page actions.

Randomness is explicit. `Math.random()` is a draw `u` in [0, 1) (`Random.Unit`), and
`roll(min, max)` is `Random.Roll`. An operation that rolls receives a finite prefix of the
random stream and returns a `Random.Run`. `Done(value, rest)` is what the script does when
the stream starts with that prefix. `Starved` means the prefix ran out before the script
finished, which is how the model says that a rejection loop is still looping: the script's
loops have no retry bound, and the model adds none. `Crashed` is a JavaScript TypeError.

Modules, one file each: `Wrappers`, `Random`, `Text` (the JavaScript string built-ins used),
`Classifier`, `Overrides` (the command markers), `Storage`, `Values`, `Choice` (radio lists and dropdowns), `MultiAnswer` (array grids and multiple choice), `Dispatch`.

Behaviour of the script that is easy to misread; the model follows the code:

- A forced radio value that is hidden does not abort the selection. `r` already points at the
  hidden option when the error is thrown. The catch only sets the alert, and the script goes
  on to the avoid loop and checks option `r`. So with no avoid list the hidden forced option
  is checked (`Choice.RadioPick`). The error also does not switch auto-run off.
- The number of boxes a multiple-choice question gets is `roll(1, ceil(n/2))`, which excludes
  `ceil(n/2)`. Six boxes give 1 or 2.
- The attempt count is never incremented in the script. It is only kept, for the same
  question, or cleared.
- A payload group without a question code is not skipped. Its empty first field becomes the
  code `""`.

## Model

| member | source | states |
|---|---|---|
| Random.Roll | SurveyTestHelper.user.js:690-692 | `roll(min, max)` with 0 <= min < max lies in [min, max); `roll(m, m)` is m; non-negative bounds give a non-negative result |
| Random.RollCovers | SurveyTestHelper.user.js:690-692 | every integer of [min, max) is returned for some draw, so no answer is unreachable |
| Random.RefusalDraw | SurveyTestHelper.user.js:696-698 | `roll(0, 100) < 20` holds exactly for the draws below 0.2, i.e. the refusal code comes with probability one fifth |
| Random.Resample | SurveyTestHelper.user.js:448-450 | a re-roll loop ends with the first candidate the test accepts, and consumes exactly the draws up to it; it never ends when no draw is accepted |
| Text.Split | SurveyTestHelper.user.js:622-625 | `split` on one character yields at least one part, no part holds the separator, and joining the parts gives the input back |
| Text.SplitJoin | SurveyTestHelper.user.js:622-625 | splitting joined separator-free parts gives the same parts back |
| Text.RemoveSpaces | SurveyTestHelper.user.js:625 | `split(" ").join("")` removes exactly the spaces and keeps every other character in order |
| Text.Decimal | SurveyTestHelper.user.js:706-709 | `String(n)` is a non-empty digit run without leading zeros, one digit below 10, at most two below 100 |
| Text.DecimalRoundTrip | SurveyTestHelper.user.js:706-709 | reading the digits of `String(n)` gives n back |
| Text.Pad2 | SurveyTestHelper.user.js:706-709 | `padStart(2, "0")` leaves longer strings alone, otherwise yields two characters ending in the input, and keeps a digit run's value |
| Classifier.GetQuestionType | SurveyTestHelper.user.js:327-339 | no container gives no kind; otherwise the kind of the first QUESTION_CLASSES entry whose class is present, and none iff no class is present |
| Classifier.ClassTableFaithful | SurveyTestHelper.user.js:12-20 | each class of QUESTION_CLASSES alone classifies as its own kind |
| Classifier.GetQuestionContext | SurveyTestHelper.user.js:340-370 | on the lower-cased text, "a scale" beats the year family (9999 before 0000 before plain year), which beats quantity, then zip, then age; none iff no family matches; Percent never results |
| Classifier.ContextIsLastMatch | SurveyTestHelper.user.js:340-370 | the context is the last matching keyword family in testing order |
| Overrides.Lookup | SurveyTestHelper.user.js:433-434 | a forced/avoided list is found iff that kind's table exists and has the code, and it is that entry |
| Overrides.ParseGroup | SurveyTestHelper.user.js:625-628 | the code and values, joined with commas, are the group without spaces; none of them holds a space or a comma |
| Overrides.ParsePayload | SurveyTestHelper.user.js:622-629 | the keys are exactly the groups' codes, and each key holds the values of the last group with that code |
| Overrides.QueryCommands | SurveyTestHelper.user.js:610-637 | `commandsFound` iff a marker exists; a kind is null iff no marker has it; otherwise it is the table of its last marker |
| Overrides.MergeKindAsWritten | SurveyTestHelper.user.js:210-216 | the written merge of one kind throws exactly when the scanned table is null and the stored one has entries |
| Overrides.MergeAsWritten | SurveyTestHelper.user.js:210-216 | where the written merge does not throw, it equals the intended merge |
| Overrides.MergeAsWrittenCrashes | SurveyTestHelper.user.js:212 | a page with only a force marker after a stored avoid table makes the written merge throw |
| Overrides.MergeKind | SurveyTestHelper.user.js:204-216 | scanned entries are never changed; every stored code is kept; stored values fill only codes the scan lacks; no other codes appear |
| Overrides.MergeAgreesWhereWrittenSucceeds | SurveyTestHelper.user.js:210-216 | the intended merge of a kind agrees with the written one wherever that one succeeds |
| Overrides.MergeIdempotent | SurveyTestHelper.user.js:204-216 | merging a table with itself gives the table |
| Overrides.MergeAbsorbs | SurveyTestHelper.user.js:204-216 | merging the same scan into an earlier merge result gives that result back |
| Storage.EncodeFlag | SurveyTestHelper.user.js:256-258 | a stored flag is non-empty and decodes (`=== "1"`) to the flag written |
| Storage.LoadFlag | SurveyTestHelper.user.js:186-196 | a non-empty stored string decides the flag and stays; otherwise the flag is false and "0" is stored |
| Storage.InitStorage | SurveyTestHelper.user.js:175-223 | flags come from local storage; codes move along; a new question resets attempts and removes the stored count, the same question keeps it; tables are merged when markers were found, taken from storage when not, and stored when nothing was. The merge is the corrected `Overrides.Merge`; it equals the script's merge wherever that one does not throw |
| Storage.FlagSurvivesReload | SurveyTestHelper.user.js:186-196 | flags written with the encoding are read back unchanged on the next page |
| Storage.ReloadIsStable | SurveyTestHelper.user.js:175-223 | loading the same page again with the storages left behind yields the same flags, attempts and tables, for every question code including `""` |
| Values.GetDateString | SurveyTestHelper.user.js:705-710 | "MM-DD HH:MM": 11 characters, separators at 2, 5 and 8, and two-digit fields reading back month+1, day, hours and minutes |
| Values.RunAtStamp | SurveyTestHelper.user.js:534-538 | the free-text value starts with "Run at: " and, for a valid clock, has 19 characters whose four two-digit fields read back month+1, day, hours and minutes |
| Values.GenerateNumericInput | SurveyTestHelper.user.js:694-703 | with a refusal code a first draw below 0.2 gives the code, otherwise the value is in [min, max); without one it is in [min, max) |
| Values.EnterNumericValue | SurveyTestHelper.user.js:504-533 | age/percent in [18, 100); year in [1910, year-18); zip is 90210 with no draw; yearRef 9999 or a year; yearAL 0 or a year; anything else, scale included, in [0, 20); it runs out of draws only when a roll is still due |
| Values.RolledText | SurveyTestHelper.user.js:470-482 | a rolled box value reads back as a number in [min, max) |
| Values.OtherText | SurveyTestHelper.user.js:464-487 | the "other" box: age/percent in [18, 100), year in [1910, year-18), "90210", quantity in [0, 20), scale in [0, 100), and the stamp for every other context |
| Choice.PickForced | SurveyTestHelper.user.js:434 | a forced value is drawn from the list iff it is non-empty, and `undefined` otherwise |
| Choice.FirstIndex | SurveyTestHelper.user.js:435-444 | the first option whose value equals the forced value, or none when no option carries it |
| Choice.ClearRadio | SurveyTestHelper.user.js:489-503 | only the first checked option changes: it is unchecked and its other box emptied |
| Choice.ClearRadioEmptiesGroup | SurveyTestHelper.user.js:489-503 | with at most one radio checked, none is checked after clearing |
| Choice.ForceRadio | SurveyTestHelper.user.js:433-445 | `r` becomes the first option carrying the drawn forced value, which counts as forced exactly when that option is visible; a hidden one raises the hiddenOptionForced alert instead; with no such option the first roll stays and counts as forced; `r` stays in range |
| Choice.RadioPick | SurveyTestHelper.user.js:424-461 | unforced: a visible, non-avoided option and no alert, with no end when all are hidden. Forced: the first option with the drawn value. When that option is hidden, the alert is raised and the option is kept unless an avoid list forces a re-roll. When no option has the value, the first roll is kept. An empty list crashes |
| Choice.SelectRandomRadio | SurveyTestHelper.user.js:424-487 | the cleared list with the picked option checked, nothing else changed, and its other box filled by the context rule |
| Choice.SelectRandomDropdown | SurveyTestHelper.user.js:581-609 | unforced: a non-empty, non-avoided value, with no end when all values are empty; forced: the first option with the drawn value (no hidden check) or the first roll |
| MultiAnswer.SelectArrayOptions | SurveyTestHelper.user.js:539-548 | one in-range answer per row, each from its own draw in row order; a row without radios crashes |
| MultiAnswer.ArrayReachesEveryAnswer | SurveyTestHelper.user.js:539-548 | every combination of one answer per row is produced by some draws |
| MultiAnswer.ClearMChoice | SurveyTestHelper.user.js:569-580 | no box is checked afterwards, other boxes' texts are emptied, everything else is kept |
| MultiAnswer.ClearMChoiceIdempotent | SurveyTestHelper.user.js:569-580 | clearing twice is clearing once |
| MultiAnswer.SelectMultipleChoiceOptions | SurveyTestHelper.user.js:549-568 | the count is `roll(1, ceil(n/2))`. Exactly that many distinct, displayed boxes are newly checked and no other box is. Each checked other box reads "Dummy Data", the rest are as cleared. It finishes only if enough boxes are displayed |
| Dispatch.EnterDummyResponse | SurveyTestHelper.user.js:390-412 | kinds 1-6 run their responder; multi-numeric and an unknown kind do nothing |
| Dispatch.ClickPrevButton | SurveyTestHelper.user.js:243-248 | the previous button is clicked iff it exists |
| Dispatch.ClickNextButton | SurveyTestHelper.user.js:232-242 | next if present, else submit if present, else back only when the run is active |
| Dispatch.SetActivity | SurveyTestHelper.user.js:249-258 | the run flag is set and its stored copy decodes to it |
| Dispatch.ToggleUi | SurveyTestHelper.user.js:259-271 | the panel flips between shown and hidden and the new state is stored |
| Dispatch.HandleKeyDown | SurveyTestHelper.user.js:299-326 | hidden: only Esc acts. Shown: right = answer then next, Enter = next, left = back, space = toggle run, Insert = answer, Esc = hide, other keys nothing. Stored flags stay consistent |
| Dispatch.EscTwiceRestores | SurveyTestHelper.user.js:299-326 | Esc twice restores the panel state |
| Dispatch.ButtonClick | SurveyTestHelper.user.js:286-298 | the button does what the right arrow does while the panel is shown: the responder of the kind, then next, submit or (when active) back, the answer first; the helper state is unchanged |
| Dispatch.AutoRun | SurveyTestHelper.user.js:96-101 | the delayed run answers and moves on iff the run is active |
| Dispatch.OnErrorDialog | SurveyTestHelper.user.js:379-389 | the dialog is dismissed and the alert set; the run stops and "0" is stored unless the override is set, in which case nothing is stored; the panel state and its stored copy are untouched; stored flags stay consistent |
| Dispatch.UiAfterLoad | SurveyTestHelper.user.js:175-202 | after loading, the stored flags agree with the flags in memory |

## Findings

| source | as written | input that shows it | evidently intended | confidence | as-written member | corrected member |
|---|---|---|---|---|---|---|
| SurveyTestHelper.user.js:210-216 | for every stored code the merge reads `this.commands[cmd][qCode]`, also when no marker of kind `cmd` is on the page and `this.commands[cmd]` is `null` | a page with only a `force` marker (`Q2,1`) after a page that stored an `avoid` table (`Q1,3`): reading `null["Q1"]` throws a TypeError and initialization stops | stored entries of a kind without markers on this page are carried forward, as the comment at lines 208-209 says | high; not executed | Overrides.MergeAsWritten | Overrides.MergeKind |

`Overrides.MergeAsWrittenCrashes` exhibits the input. `Overrides.Merge`, built from
`Overrides.MergeKind`, is the merge `Storage.InitStorage` uses.

## Left out

- User interface construction and styling (`initUI`, `showUI`/`hideUI`, info elements, `generateArrayInfoDisplay`, `generateRadioInfoDisplay`, `setAlert` styling): presentational only. `toggleUI` is kept as the flag it flips.
- `addErrorAlertListener` and the MutationObserver: only the handler is modelled, as `Dispatch.OnErrorDialog`.
- `setTimeout`, `document.onkeydown` and `.click()` on page buttons: these are host-page plumbing. Navigation and answering are the abstract actions of `Dispatch.Action`.
- `localStorage`, `sessionStorage` and JSON: both storages are records passed in and returned. The stored attempt count is the number `Number()` reads, and parsing arbitrary strings is not modelled.
- Floating point: a draw is an exact real. Rounding in `Math.random() * (max - min) + min` is not modelled. Neither is the 32-bit wrap of `| 0`, because every argument the script passes is far below 2^31.
- Probability: uniformity is not modelled. `Random.RollCovers` and `Random.RefusalDraw` state what can be drawn and the refusal share.
- Termination of the rejection loops: the model runs over a finite prefix of draws and reports `Starved` when it runs out. The hang cases are stated as "never Done" (radio, dropdown) and "Done only if enough boxes are displayed" (multiple choice).
- `toLowerCase` and `innerText`: only ASCII letters are lower-cased, and the rendered question text is taken as given.
- Question code lookup (`span#QNameNumData`, default "N/A"): the code is a parameter.
- A marker element without its `data-` attribute (a TypeError in the script) is not modelled. Each marker carries its payload string.
- Object keys inherited from `Object.prototype` (such as `constructor`) are treated as ordinary absent keys.
- Page structure is assumed well-formed: one radio per answer item, a text box in every "other" item, and the widget elements present. Missing elements (null queries) are not modelled.
- Effects made before a TypeError are not kept: a grid row without radios reports `Crashed` without the rows already checked.
- The browser's own reactions are not modelled: checking a radio or selecting an option does not deselect its siblings, and click handlers on checkboxes are ignored. The model records what the script writes.
- `clearResponses`: no caller in the script.
- The dispatch does not connect a `Fill` action to its responder's outcome. When a responder throws (an empty radio list, a grid row without radios), the script's handler stops there and the navigation after it does not happen. The action lists of `Dispatch.HandleKeyDown`, `Dispatch.ButtonClick` and `Dispatch.AutoRun` are what the handler asks for when the responder finishes.
- Storage.InitStorage: uses the corrected merge. On a page whose markers leave one kind null while storage holds entries of that kind (see "## Findings"), the script throws at line 212 and stops initializing. The model instead returns the merged tables and does not promise the throw. The throw is stated by `Overrides.MergeAsWritten` and `Overrides.MergeAsWrittenCrashes`.

=== FILE: choice.dfy ===
/**
 * The single-choice responders: `selectRandomRadio` with `clearRadio`, and
 * `selectRandomDropdown`. Both draw an option, honour a forced value list or an avoided value
 * list for the current question, and re-roll while the option drawn is unusable.
 */
module Choice {
  import opened Wrappers
  import opened Random
  import opened Overrides
  import opened Values

  /** What the responders read from the page besides the widget itself. */
  datatype Env = Env(code: string, commands: Commands, text: string, clock: Clock)

  /** `commands.force[code]`, when present. */
  function ForcedList(env: Env): Option<seq<string>> {
    Lookup(env.commands, Force, env.code)
  }

  /** `commands.avoid[code]`, when present. */
  function AvoidedList(env: Env): Option<seq<string>> {
    Lookup(env.commands, Avoid, env.code)
  }

  /**
   * `forced[roll(0, forced.length)]`: one of the forced values, or None (`undefined`) for an
   * empty list.
   */
  function PickForced(vals: seq<string>, u: Unit): (r: Option<string>)
    ensures r.Some? <==> |vals| > 0
    ensures r.Some? ==> r.value in vals
  {
    var i := Roll(u, 0, |vals|);
    if 0 <= i < |vals| then Some(vals[i]) else None
  }

  /** The first index whose value is `v` (`===` against `undefined` never holds). */
  function FirstIndex(vs: seq<string>, v: Option<string>): (r: Option<nat>)
    ensures r.None? <==> forall i :: 0 <= i < |vs| ==> Some(vs[i]) != v
    ensures r.Some? ==> r.value < |vs| && Some(vs[r.value]) == v && forall j :: 0 <= j < r.value ==> Some(vs[j]) != v
    decreases |vs|
  {
    if |vs| == 0 then None
    else if Some(vs[0]) == v then Some(0)
    else match FirstIndex(vs[1..], v)
      case None => None
      case Some(i) => Some(i + 1)
  }

  /* ---------------------------------------------------------------------------------------
   * Radio lists
   * ------------------------------------------------------------------------------------- */

  /**
   * One `div.answer-item` of a radio list: the radio's value, whether it is hidden (zero
   * width or height), whether it is checked, and the text of its "other" box if it has one.
   */
  datatype RadioOption = RadioOption(value: string, hidden: bool, checked: bool, other: Option<string>)

  function ValuesOf(opts: seq<RadioOption>): (vs: seq<string>)
    ensures |vs| == |opts| && forall i :: 0 <= i < |opts| ==> vs[i] == opts[i].value
  {
    seq(|opts|, i requires 0 <= i < |opts| => opts[i].value)
  }

  /** Option `i` is the first checked one. */
  predicate FirstChecked(opts: seq<RadioOption>, i: int)
    requires 0 <= i < |opts|
  {
    opts[i].checked && forall j :: 0 <= j < i ==> !opts[j].checked
  }

  /** The option unchecked, its "other" box (if any) emptied. */
  function Uncheck(o: RadioOption): RadioOption {
    o.(checked := false, other := if o.other.Some? then Some("") else None)
  }

  /**
   * `clearRadio`: the first checked option is unchecked and its "other" box emptied; the scan
   * stops there, every other option is left as it was.
   */
  function ClearRadio(opts: seq<RadioOption>): (r: seq<RadioOption>)
    ensures |r| == |opts|
    ensures forall i :: 0 <= i < |opts| ==> r[i] == (if FirstChecked(opts, i) then Uncheck(opts[i]) else opts[i])
    decreases |opts|
  {
    if |opts| == 0 then []
    else if opts[0].checked then [Uncheck(opts[0])] + opts[1..]
    else
      var rest := ClearRadio(opts[1..]);
      assert forall i :: 1 <= i < |opts| ==> (FirstChecked(opts, i) <==> FirstChecked(opts[1..], i - 1));
      [opts[0]] + rest
  }

  /** In a real radio group at most one option is checked; clearing then leaves none checked. */
  lemma ClearRadioEmptiesGroup(opts: seq<RadioOption>)
    requires forall i, j :: 0 <= i < j < |opts| ==> !(opts[i].checked && opts[j].checked)
    ensures forall i :: 0 <= i < |opts| ==> !ClearRadio(opts)[i].checked
  {
  }

  /** The message of the one named error, STH_ERROR.hiddenOptionForced. */
  function HiddenForcedAlert(code: string, v: string): string {
    "ERROR: " + code + " - option " + v + " is hidden but is being used as a forced option."
  }

  /** Where the `try` block of `selectRandomRadio` leaves `r`, `forced` and the alert. */
  datatype Forcing = Forcing(r: int, forced: bool, alert: Option<string>)

  /**
   * The forced branch: the first option carrying the drawn forced value becomes `r`; if it is
   * hidden the throw sets the alert before `forced = true` is reached. When no option carries
   * the value, `r` keeps its first roll.
   */
  function ForceRadio(opts: seq<RadioOption>, code: string, vals: seq<string>, r0: int, u: Unit): (f: Forcing)
    ensures 0 <= r0 < |opts| ==> 0 <= f.r < |opts|
    // no option carries the forced value: the first roll stays and the value counts as forced
    ensures FirstIndex(ValuesOf(opts), PickForced(vals, u)).None? ==> f == Forcing(r0, true, None)
    // the first option carrying it is chosen; it counts as forced exactly when it is visible
    ensures FirstIndex(ValuesOf(opts), PickForced(vals, u)).Some? ==>
              var i := FirstIndex(ValuesOf(opts), PickForced(vals, u)).value;
              && PickForced(vals, u).Some?
              && f.r == i && i < |opts| && opts[i].value == PickForced(vals, u).value
              && (forall j :: 0 <= j < i ==> opts[j].value != opts[i].value)
              && (f.forced <==> !opts[i].hidden)
              && (f.alert.Some? <==> opts[i].hidden)
              && (opts[i].hidden ==> f.alert == Some(HiddenForcedAlert(code, opts[i].value)))
  {
    var fv := PickForced(vals, u);
    match FirstIndex(ValuesOf(opts), fv)
    case None => Forcing(r0, true, None)
    case Some(i) =>
      if opts[i].hidden then Forcing(i, false, Some(HiddenForcedAlert(code, fv.value)))
      else Forcing(i, true, None)
  }

  /**
   * The index `selectRandomRadio` checks and the alert it raises: lines 427-461. Crashed for
   * an empty list, where the script indexes a missing element.
   */
  function RadioPick(env: Env, opts: seq<RadioOption>, draws: seq<Unit>): (res: Run<(nat, Option<string>)>)
    ensures res.Crashed? <==> |draws| > 0 && |opts| == 0
    ensures res.Done? ==> res.value.0 < |opts|
    // unforced: a visible option, not avoided, and no alert
    ensures res.Done? && ForcedList(env).None? ==>
              !opts[res.value.0].hidden && res.value.1.None?
              && (AvoidedList(env).Some? ==> opts[res.value.0].value !in AvoidedList(env).value)
    // unforced with every option hidden: the script never leaves the loop
    ensures ForcedList(env).None? && |draws| > 0 && (forall i :: 0 <= i < |opts| ==> opts[i].hidden) ==> !res.Done?
    // forced: one draw for the first roll, one for the forced value
    ensures res.Done? && ForcedList(env).Some? ==> |draws| >= 2
    ensures res.Done? && ForcedList(env).Some? ==>
              var fv := PickForced(ForcedList(env).value, draws[1]);
              var (chosen, alert) := res.value;
              match FirstIndex(ValuesOf(opts), fv)
              case None => chosen == Roll(draws[0], 0, |opts|) && alert.None?
              case Some(i) =>
                if !opts[i].hidden then chosen == i && alert.None?
                else alert == Some(HiddenForcedAlert(env.code, fv.value))
                     && (AvoidedList(env).None? ==> chosen == i)
                     && (AvoidedList(env).Some? ==> !opts[chosen].hidden && opts[chosen].value !in AvoidedList(env).value)
  {
    if |draws| == 0 then Starved
    else if |opts| == 0 then Crashed
    else
      var n := |opts|;
      var r0 := Roll(draws[0], 0, n);
      var visible := (i: int) => 0 <= i < n && !opts[i].hidden;
      var tried: Run<Forcing> :=
        match ForcedList(env)
        case Some(vals) =>
          if |draws| < 2 then Starved else Done(ForceRadio(opts, env.code, vals, r0, draws[1]), draws[2..])
        case None =>
          match Resample(r0, n, visible, draws[1..])
          case Done(r1, rest) => Done(Forcing(r1, false, None), rest)
          case _ => Starved;
      match tried
      case Done(f, rest) =>
        (match AvoidedList(env)
         case Some(avoid) =>
           if f.forced then Done((f.r as nat, f.alert), rest)
           else
             var allowed := (i: int) => visible(i) && opts[i].value !in avoid;
             (match Resample(f.r, n, allowed, rest)
              case Done(r, rest') => Done((r as nat, f.alert), rest')
              case _ => Starved)
         case None => Done((f.r as nat, f.alert), rest))
      case _ => Starved
  }

  /** What `selectRandomRadio` leaves: the options, the index checked and the alert raised. */
  datatype RadioResult = RadioResult(options: seq<RadioOption>, chosen: nat, alert: Option<string>)

  /**
   * `selectRandomRadio`: the list is cleared, the picked option is checked and, if it has an
   * "other" box, the box gets the text the question's context calls for.
   */
  function SelectRandomRadio(env: Env, opts: seq<RadioOption>, draws: seq<Unit>): (res: Run<RadioResult>)
    ensures res.Crashed? <==> RadioPick(env, opts, draws).Crashed?
    ensures res.Done? ==>
              var p := RadioPick(env, opts, draws);
              var o := res.value;
              var cleared := ClearRadio(opts);
              && p.Done? && o.chosen == p.value.0 && o.alert == p.value.1
              && |o.options| == |opts|
              && (forall i :: 0 <= i < |opts| && i != o.chosen ==> o.options[i] == cleared[i])
              && o.options[o.chosen].checked
              && o.options[o.chosen].value == opts[o.chosen].value
              && o.options[o.chosen].hidden == opts[o.chosen].hidden
              && (o.options[o.chosen].other.Some? <==> opts[o.chosen].other.Some?)
              && (opts[o.chosen].other.Some? ==>
                    OtherText(env.text, env.clock, p.rest) == Done(o.options[o.chosen].other.value, res.rest))
  {
    match RadioPick(env, opts, draws)
    case Done((r, alert), rest) =>
      var cleared := ClearRadio(opts);
      var picked := cleared[r].(checked := true);
      if picked.other.Some? then
        match OtherText(env.text, env.clock, rest)
        case Done(t, rest') => Done(RadioResult(cleared[r := picked.(other := Some(t))], r, alert), rest')
        case _ => Starved
      else Done(RadioResult(cleared[r := picked], r, alert), rest)
    case Starved => Starved
    case Crashed => Crashed
  }

  /* ---------------------------------------------------------------------------------------
   * Dropdowns
   * ------------------------------------------------------------------------------------- */

  /**
   * `selectRandomDropdown` over the values of the select's options: the index it selects.
   * Forced values are taken without any visibility check; otherwise options with an empty
   * value (the "please choose" entry) and avoided values are re-rolled.
   */
  function SelectRandomDropdown(env: Env, values: seq<string>, draws: seq<Unit>): (res: Run<nat>)
    ensures res.Crashed? <==> |draws| > 0 && |values| == 0
    ensures res.Done? ==> res.value < |values|
    ensures res.Done? && ForcedList(env).None? ==>
              values[res.value] != ""
              && (AvoidedList(env).Some? ==> values[res.value] !in AvoidedList(env).value)
    ensures ForcedList(env).None? && |draws| > 0 && (forall i :: 0 <= i < |values| ==> values[i] == "") ==> !res.Done?
    ensures res.Done? && ForcedList(env).Some? ==> |draws| >= 2
    ensures res.Done? && ForcedList(env).Some? ==>
              match FirstIndex(values, PickForced(ForcedList(env).value, draws[1]))
              case None => res.value == Roll(draws[0], 0, |values|)
              case Some(i) => res.value == i
  {
    if |draws| == 0 then Starved
    else if |values| == 0 then Crashed
    else
      var n := |values|;
      var r0 := Roll(draws[0], 0, n);
      var filled := (i: int) => 0 <= i < n && values[i] != "";
      var first: Run<(int, bool)> :=
        match ForcedList(env)
        case Some(vals) =>
          if |draws| < 2 then Starved
          else
            (match FirstIndex(values, PickForced(vals, draws[1]))
             case None => Done((r0, true), draws[2..])
             case Some(i) => Done((i as int, true), draws[2..]))
        case None =>
          match Resample(r0, n, filled, draws[1..])
          case Done(r1, rest) => Done((r1, false), rest)
          case _ => Starved;
      match first
      case Done((r, forced), rest) =>
        (match AvoidedList(env)
         case Some(avoid) =>
           if forced then Done(r as nat, rest)
           else
             var allowed := (i: int) => filled(i) && values[i] !in avoid;
             (match Resample(r, n, allowed, rest)
              case Done(r', rest') => Done(r' as nat, rest')
              case _ => Starved)
         case None => Done(r as nat, rest))
      case _ => Starved
  }
}

=== FILE: classifier.dfy ===
/**
 * The classifier: which widget the current question is (from the class tokens of its
 * `div.question-container`) and which topic its text suggests (from keywords).
 */
module Classifier {
  import opened Wrappers
  import opened Text

  /** QUESTION_TYPE: the seven widget kinds, numbered 1 to 7 in the script. */
  datatype QuestionKind =
    | Radio          // 1, "list-radio"
    | NumericInput   // 2, "numeric"
    | ShortFreeText  // 3, "text-short"
    | Array          // 4, "array-flexible-row"
    | MChoice        // 5, "multiple-opt"
    | Dropdown       // 6, "list-dropdown"
    | MultiNumInput  // 7, "numeric-multi"

  /** QUESTION_CLASSES, in declaration order (the order `for ... in` visits it). */
  const QuestionClasses: seq<(string, QuestionKind)> := [
    ("list-radio", Radio),
    ("numeric", NumericInput),
    ("text-short", ShortFreeText),
    ("array-flexible-row", Array),
    ("multiple-opt", MChoice),
    ("list-dropdown", Dropdown),
    ("numeric-multi", MultiNumInput)
  ]

  /** The kind of the first entry of QuestionClasses, from index `i` on, whose class is a token. */
  function FirstClassMatch(tokens: set<string>, i: nat): (r: Option<QuestionKind>)
    requires i <= |QuestionClasses|
    ensures r.None? <==> forall j :: i <= j < |QuestionClasses| ==> QuestionClasses[j].0 !in tokens
    ensures r.Some? ==>
              exists j :: i <= j < |QuestionClasses| && QuestionClasses[j].0 in tokens
                          && QuestionClasses[j].1 == r.value
                          && forall l :: i <= l < j ==> QuestionClasses[l].0 !in tokens
    decreases |QuestionClasses| - i
  {
    if i == |QuestionClasses| then None
    else if QuestionClasses[i].0 in tokens then Some(QuestionClasses[i].1)
    else FirstClassMatch(tokens, i + 1)
  }

  /**
   * `getQuestionType`: `container` is the class list of the question container, None when the
   * page has none. The first class of QuestionClasses present decides; None when there is
   * no container or no class matches.
   */
  function GetQuestionType(container: Option<set<string>>): (r: Option<QuestionKind>)
    ensures container.None? ==> r.None?
    ensures container.Some? ==>
              (r.None? <==> forall j :: 0 <= j < |QuestionClasses| ==> QuestionClasses[j].0 !in container.value)
    ensures r.Some? ==>
              exists j :: 0 <= j < |QuestionClasses| && QuestionClasses[j].0 in container.value
                          && QuestionClasses[j].1 == r.value
                          && forall l :: 0 <= l < j ==> QuestionClasses[l].0 !in container.value
  {
    match container
    case None => None
    case Some(tokens) => FirstClassMatch(tokens, 0)
  }

  /** Each class alone classifies as its own kind: no two kinds share a class. */
  lemma ClassTableFaithful(j: nat)
    requires j < |QuestionClasses|
    ensures GetQuestionType(Some({QuestionClasses[j].0})) == Some(QuestionClasses[j].1)
  {
  }

  /** Q_CONTEXT: what the question text is about. */
  datatype Context =
    | Age        // 1
    | Year       // 2
    | ZipCode    // 3
    | Quantity   // 4
    | Percent    // 5, never produced by the classifier
    | YearRef    // 6, a year question whose refusal code is 9999
    | YearAL     // 7, a year question whose refusal code is 0000
    | Scale      // 8

  predicate AgeWords(t: string) {
    Includes(t, "age") || Includes(t, "how old")
  }

  predicate ZipWords(t: string) {
    Includes(t, "postal ") || Includes(t, "zip ")
  }

  predicate QuantityWords(t: string) {
    Includes(t, " many") || Includes(t, " much") || Includes(t, " number") || Includes(t, "amount")
  }

  predicate YearWords(t: string) {
    Includes(t, "year") || Includes(t, " born")
  }

  predicate ScaleWords(t: string) {
    Includes(t, "a scale")
  }

  /**
   * `getQuestionContext`: the keyword families are checked one after another on the
   * lower-cased text and each match overwrites the previous verdict, so the LAST family
   * that matches wins. Equivalently, the families rank scale > year > quantity > zip > age.
   */
  function GetQuestionContext(text: string): (r: Option<Context>)
    ensures var t := Lower(text);
            && (ScaleWords(t) ==> r == Some(Scale))
            && (!ScaleWords(t) && YearWords(t) ==>
                  r == Some(if Includes(t, "9999") then YearRef else if Includes(t, "0000") then YearAL else Year))
            && (!ScaleWords(t) && !YearWords(t) && QuantityWords(t) ==> r == Some(Quantity))
            && (!ScaleWords(t) && !YearWords(t) && !QuantityWords(t) && ZipWords(t) ==> r == Some(ZipCode))
            && (!ScaleWords(t) && !YearWords(t) && !QuantityWords(t) && !ZipWords(t) && AgeWords(t) ==> r == Some(Age))
            && (r.None? <==> !AgeWords(t) && !ZipWords(t) && !QuantityWords(t) && !YearWords(t) && !ScaleWords(t))
    ensures r != Some(Percent)
  {
    var t := Lower(text);
    var c0: Option<Context> := None;
    var c1 := if AgeWords(t) then Some(Age) else c0;
    var c2 := if ZipWords(t) then Some(ZipCode) else c1;
    var c3 := if QuantityWords(t) then Some(Quantity) else c2;
    var c4 := if YearWords(t) then
                (if Includes(t, "9999") then Some(YearRef) else if Includes(t, "0000") then Some(YearAL) else Some(Year))
              else c3;
    if ScaleWords(t) then Some(Scale) else c4
  }

  /** The verdict of each keyword family, in the order the script tests them. */
  function Verdicts(t: string): seq<Option<Context>> {
    [ if AgeWords(t) then Some(Age) else None,
      if ZipWords(t) then Some(ZipCode) else None,
      if QuantityWords(t) then Some(Quantity) else None,
      if YearWords(t) then
        Some(if Includes(t, "9999") then YearRef else if Includes(t, "0000") then YearAL else Year)
      else None,
      if ScaleWords(t) then Some(Scale) else None ]
  }

  /** The last verdict that is not None: what a run of overwriting assignments leaves. */
  function LastMatch(vs: seq<Option<Context>>): Option<Context> {
    if |vs| == 0 then None
    else if vs[|vs| - 1].Some? then vs[|vs| - 1]
    else LastMatch(vs[..|vs| - 1])
  }

  /** `getQuestionContext` is last-match-wins over the keyword families. */
  lemma ContextIsLastMatch(text: string)
    ensures GetQuestionContext(text) == LastMatch(Verdicts(Lower(text)))
  {
    var vs := Verdicts(Lower(text));
    LastMatchStep(vs, 0);
    LastMatchStep(vs, 1);
    LastMatchStep(vs, 2);
    LastMatchStep(vs, 3);
    LastMatchStep(vs, 4);
    assert vs[..5] == vs;
  }

  lemma LastMatchStep(vs: seq<Option<Context>>, k: nat)
    requires k < |vs|
    ensures LastMatch(vs[..k + 1]) == if vs[k].Some? then vs[k] else LastMatch(vs[..k])
  {
    assert vs[..k + 1][..k] == vs[..k];
  }
}

=== FILE: dispatch.dfy ===
/**
 * The control surface: which responder runs for a widget kind, the key bindings, the
 * navigation buttons, the auto-run and the validation-dialog handler. Page effects are
 * returned as abstract actions for the host page to carry out.
 */
module Dispatch {
  import opened Wrappers
  import opened Classifier
  import opened Storage

  /** BUTTON_CODES: the key codes the helper reacts to. */
  const KeyEnter := 13
  const KeyEsc := 27
  const KeySpace := 32
  const KeyLeft := 37
  const KeyRight := 39
  const KeyInsert := 45

  /**
   * What the helper asks of the page, in order. A responder that crashes (see Random.Run)
   * ends the handler there: the actions after a `Fill` whose responder crashes do not happen.
   */
  datatype Action =
    | Fill(kind: QuestionKind)  // run the responder of this widget kind
    | PressNext                 // click #movenextbtn
    | PressSubmit               // click #movesubmitbtn
    | PressPrev                 // click #moveprevbtn
    | DismissDialog             // click the dialog's close button

  /** Which navigation buttons the page has. */
  datatype Nav = Nav(next: bool, submit: bool, prev: bool)

  /** The helper's run state: the two flags, their stored copies, and the alert shown. */
  datatype Ui = Ui(active: bool, hidden: bool, local: Local, alert: Option<string>)

  /** One handler's effect: the actions it asks for and the state it leaves. */
  datatype Step = Step(actions: seq<Action>, ui: Ui)

  /** The stored flags say what the flags in memory are. */
  predicate Consistent(ui: Ui) {
    && ui.local.active.Some? && DecodeFlag(ui.local.active.value) == ui.active
    && ui.local.hidden.Some? && DecodeFlag(ui.local.hidden.value) == ui.hidden
  }

  /** The state right after `initStorage`: the stored flags are consistent from the start. */
  function UiAfterLoad(code: string, scan: Overrides.Scan, local: Local, session: Session): (ui: Ui)
    ensures Consistent(ui)
    ensures local.active.Some? && local.active.value != "" ==> ui.active == DecodeFlag(local.active.value)
    ensures local.hidden.Some? && local.hidden.value != "" ==> ui.hidden == DecodeFlag(local.hidden.value)
  {
    var r := InitStorage(code, scan, local, session);
    Ui(r.active, r.hidden, r.local, None)
  }

  /**
   * `enterDummyResponse`: the responder of the kind runs; a multi-numeric question or an
   * unrecognised page does nothing.
   */
  function EnterDummyResponse(kind: Option<QuestionKind>): (acts: seq<Action>)
    ensures |acts| <= 1
    ensures acts == [] <==> kind.None? || kind == Some(MultiNumInput)
    ensures forall k :: Fill(k) in acts <==> kind == Some(k) && k != MultiNumInput
  {
    match kind
    case Some(k) => if k == MultiNumInput then [] else [Fill(k)]
    case None => []
  }

  /** `clickPrevButton`. */
  function ClickPrevButton(nav: Nav): (acts: seq<Action>)
    ensures acts == [] || acts == [PressPrev]
    ensures PressPrev in acts <==> nav.prev
  {
    if nav.prev then [PressPrev] else []
  }

  /**
   * `clickNextButton`: the next button, else the submit button; with neither, an active run
   * goes back instead.
   */
  function ClickNextButton(nav: Nav, active: bool): (acts: seq<Action>)
    ensures |acts| <= 1
    ensures PressNext in acts <==> nav.next
    ensures PressSubmit in acts <==> !nav.next && nav.submit
    ensures PressPrev in acts <==> !nav.next && !nav.submit && active && nav.prev
  {
    if nav.next then [PressNext]
    else if nav.submit then [PressSubmit]
    else if active then ClickPrevButton(nav)
    else []
  }

  /** `setActivity(flag)`: the flag and its stored copy. */
  function SetActivity(ui: Ui, flag: bool): (r: Ui)
    ensures r.active == flag && r.local.active.Some? && DecodeFlag(r.local.active.value) == flag
    ensures r.hidden == ui.hidden && r.local.hidden == ui.local.hidden && r.alert == ui.alert
  {
    ui.(active := flag, local := ui.local.(active := Some(EncodeFlag(flag))))
  }

  /** `toggleUI`: the panel is shown if hidden and hidden if shown; the new state is stored. */
  function ToggleUi(ui: Ui): (r: Ui)
    ensures r.hidden == !ui.hidden && r.local.hidden.Some? && DecodeFlag(r.local.hidden.value) == r.hidden
    ensures r.active == ui.active && r.local.active == ui.local.active && r.alert == ui.alert
  {
    var hidden := !ui.hidden;
    ui.(hidden := hidden, local := ui.local.(hidden := Some(EncodeFlag(hidden))))
  }

  /**
   * `handleKeyDown`: while the panel is hidden only Esc (showing it) has an effect. Otherwise
   * right answers and moves on (falling through to Enter), Enter moves on, left goes back,
   * space toggles the auto-run, Insert answers only and Esc hides the panel.
   */
  function HandleKeyDown(key: int, ui: Ui, nav: Nav, kind: Option<QuestionKind>): (r: Step)
    ensures ui.hidden && key != KeyEsc ==> r == Step([], ui)
    ensures key == KeyEsc ==> r == Step([], ToggleUi(ui))
    ensures !ui.hidden && key == KeyRight ==>
              r == Step(EnterDummyResponse(kind) + ClickNextButton(nav, ui.active), ui)
    ensures !ui.hidden && key == KeyEnter ==> r == Step(ClickNextButton(nav, ui.active), ui)
    ensures !ui.hidden && key == KeyLeft ==> r == Step(ClickPrevButton(nav), ui)
    ensures !ui.hidden && key == KeySpace ==> r == Step([], SetActivity(ui, !ui.active))
    ensures !ui.hidden && key == KeyInsert ==> r == Step(EnterDummyResponse(kind), ui)
    ensures key !in {KeyEsc, KeyRight, KeyEnter, KeyLeft, KeySpace, KeyInsert} ==> r == Step([], ui)
    ensures Consistent(ui) ==> Consistent(r.ui)
  {
    if ui.hidden then
      if key == KeyEsc then Step([], ToggleUi(ui)) else Step([], ui)
    else if key == KeyRight then Step(EnterDummyResponse(kind) + ClickNextButton(nav, ui.active), ui)
    else if key == KeyEnter then Step(ClickNextButton(nav, ui.active), ui)
    else if key == KeyLeft then Step(ClickPrevButton(nav), ui)
    else if key == KeySpace then Step([], SetActivity(ui, !ui.active))
    else if key == KeyInsert then Step(EnterDummyResponse(kind), ui)
    else if key == KeyEsc then Step([], ToggleUi(ui))
    else Step([], ui)
  }

  /** Pressing Esc twice leaves the panel as it was, with its state stored. */
  lemma EscTwiceRestores(ui: Ui, nav: Nav, kind: Option<QuestionKind>)
    ensures HandleKeyDown(KeyEsc, HandleKeyDown(KeyEsc, ui, nav, kind).ui, nav, kind).ui
            == ui.(local := ui.local.(hidden := Some(EncodeFlag(ui.hidden))))
  {
  }

  /**
   * The "Input and Continue" button: answer, then move on. It does what the right arrow does
   * while the panel is shown, and it leaves the helper's state alone.
   */
  function ButtonClick(ui: Ui, nav: Nav, kind: Option<QuestionKind>): (r: Step)
    ensures !ui.hidden ==> HandleKeyDown(KeyRight, ui, nav, kind) == r
    ensures r.ui == ui && (Consistent(ui) ==> Consistent(r.ui))
    ensures |r.actions| <= 2
    ensures forall k :: Fill(k) in r.actions <==> kind == Some(k) && k != MultiNumInput
    ensures PressNext in r.actions <==> nav.next
    ensures PressSubmit in r.actions <==> !nav.next && nav.submit
    ensures PressPrev in r.actions <==> !nav.next && !nav.submit && ui.active && nav.prev
    // the answer is filled in before the page is left
    ensures |r.actions| == 2 ==> r.actions[0].Fill? && !r.actions[1].Fill?
  {
    Step(EnterDummyResponse(kind) + ClickNextButton(nav, ui.active), ui)
  }

  /** The delayed auto-run after load: an active run answers and moves on, an inactive one waits. */
  function AutoRun(ui: Ui, nav: Nav, kind: Option<QuestionKind>): (acts: seq<Action>)
    ensures !ui.active ==> acts == []
    ensures ui.active ==> acts == ButtonClick(ui, nav, kind).actions
  {
    if ui.active then EnterDummyResponse(kind) + ClickNextButton(nav, ui.active) else []
  }

  /**
   * The validation dialog became visible: the alert says so, the dialog is dismissed and,
   * unless `errorDeactivateOverride` is set, the auto-run is switched off.
   */
  function OnErrorDialog(ui: Ui, deactivateOverride: bool): (r: Step)
    ensures r.actions == [DismissDialog]
    ensures r.ui.alert == Some(if ui.active then "Answer Invalid. Pausing run..." else "Answer Invalid.")
    ensures !deactivateOverride ==> !r.ui.active
    ensures deactivateOverride ==> r.ui.active == ui.active
    ensures Consistent(ui) ==> Consistent(r.ui)
    // the panel and its stored state are left alone; with the override nothing is stored
    ensures r.ui.hidden == ui.hidden && r.ui.local.hidden == ui.local.hidden
    ensures deactivateOverride ==> r.ui.local == ui.local
    ensures !deactivateOverride ==> r.ui.local.active == Some("0")
  {
    var alert := if ui.active then "Answer Invalid. Pausing run..." else "Answer Invalid.";
    var shown := ui.(alert := Some(alert));
    Step([DismissDialog], if deactivateOverride then shown else SetActivity(shown, false))
  }
}

=== FILE: multi_answer.dfy ===
/**
 * The multi-option responders: `selectArrayOptions` (one radio per row of an array grid) and
 * `selectMultipleChoiceOptions` with `clearMChoice` (a set of checkboxes).
 */
module MultiAnswer {
  import opened Random

  /* ---------------------------------------------------------------------------------------
   * Array grids
   * ------------------------------------------------------------------------------------- */

  /**
   * `selectArrayOptions`: `rows[i]` is the number of radios in row i; every row, in order,
   * gets its own roll, and the index rolled is the radio checked in that row. A row without
   * radios makes the script index a missing element.
   */
  function SelectArrayOptions(rows: seq<nat>, draws: seq<Unit>): (res: Run<seq<nat>>)
    ensures (forall i :: 0 <= i < |rows| ==> rows[i] > 0) && |draws| >= |rows| ==> res.Done?
    ensures res.Done? ==> |draws| >= |rows| && res.rest == draws[|rows|..]
    ensures res.Done? ==> |res.value| == |rows|
    ensures res.Done? ==> forall i :: 0 <= i < |rows| ==> res.value[i] < rows[i] && res.value[i] == Roll(draws[i], 0, rows[i])
    // the first row without radios, reached while draws remain, is indexed at a missing element
    ensures res.Crashed? <==> exists i :: 0 <= i < |rows| && i < |draws| && rows[i] == 0 && forall j :: 0 <= j < i ==> rows[j] > 0
    decreases |rows|
  {
    if |rows| == 0 then Done([], draws)
    else if |draws| == 0 then Starved
    else if rows[0] == 0 then Crashed
    else
      match SelectArrayOptions(rows[1..], draws[1..])
      case Done(cs, rest) =>
        assert forall i :: 1 <= i < |rows| ==> rows[1..][i - 1] == rows[i] && draws[1..][i - 1] == draws[i];
        Done([Roll(draws[0], 0, rows[0]) as nat] + cs, rest)
      case Starved => Starved
      case Crashed => Crashed
  }

  /** Every combination of answers, one per row, is produced by some sequence of draws. */
  lemma {:induction false} ArrayReachesEveryAnswer(rows: seq<nat>, answers: seq<nat>)
    requires |answers| == |rows|
    requires forall i :: 0 <= i < |rows| ==> answers[i] < rows[i]
    ensures exists draws :: SelectArrayOptions(rows, draws) == Done(answers, [])
    decreases |rows|
  {
    if |rows| == 0 {
      assert SelectArrayOptions(rows, []) == Done(answers, []);
    } else {
      ArrayReachesEveryAnswer(rows[1..], answers[1..]);
      var tail :| SelectArrayOptions(rows[1..], tail) == Done(answers[1..], []);
      RollCovers(0, rows[0], answers[0]);
      var u: Unit :| Roll(u, 0, rows[0]) == answers[0];
      var draws := [u] + tail;
      assert draws[1..] == tail;
      assert [answers[0]] + answers[1..] == answers;
      assert SelectArrayOptions(rows, draws) == Done(answers, []);
    }
  }

  /* ---------------------------------------------------------------------------------------
   * Multiple choice
   * ------------------------------------------------------------------------------------- */

  /**
   * One checkbox: whether it is checked, whether its `div.answer-item` is displayed, whether it
   * is an "other-checkbox", and the text of that item's text box.
   */
  datatype Checkbox = Checkbox(checked: bool, displayed: bool, isOther: bool, text: string)

  /** The text boxes `clearMChoice` empties, and what it leaves in the others. */
  function ClearedText(b: Checkbox): string {
    if b.isOther then "" else b.text
  }

  /**
   * `clearMChoice`: every checked box is clicked off and the text box of every "other" item is
   * emptied; visibility and kinds are untouched.
   */
  function ClearMChoice(boxes: seq<Checkbox>): (r: seq<Checkbox>)
    ensures |r| == |boxes|
    ensures forall i :: 0 <= i < |boxes| ==>
              !r[i].checked && r[i].displayed == boxes[i].displayed && r[i].isOther == boxes[i].isOther
              && r[i].text == ClearedText(boxes[i])
  {
    seq(|boxes|, i requires 0 <= i < |boxes| => boxes[i].(checked := false, text := ClearedText(boxes[i])))
  }

  /** Clearing twice is clearing once. */
  lemma ClearMChoiceIdempotent(boxes: seq<Checkbox>)
    ensures ClearMChoice(ClearMChoice(boxes)) == ClearMChoice(boxes)
  {
  }

  /** `Math.ceil(n / 2)`. */
  function HalfUp(n: nat): nat {
    (n + 1) / 2
  }

  predicate Distinct(s: seq<nat>) {
    forall i, j :: 0 <= i < j < |s| ==> s[i] != s[j]
  }

  /** The indices of the displayed boxes. */
  function DisplayedSet(boxes: seq<Checkbox>): set<nat> {
    set i: nat | i < |boxes| && boxes[i].displayed
  }

  /** What `selectMultipleChoiceOptions` leaves: the boxes, the indices it checked, and the count drawn. */
  datatype MultiResult = MultiResult(boxes: seq<Checkbox>, checkedNow: seq<nat>, numToCheck: int)

  /**
   * `selectMultipleChoiceOptions`: the count is `roll(1, ceil(n / 2))`, the boxes are cleared,
   * then boxes are drawn until that many distinct displayed boxes have been checked; the text
   * box of each checked "other" item gets "Dummy Data".
   */
  method SelectMultipleChoiceOptions(boxes: seq<Checkbox>, draws: seq<Unit>) returns (res: Run<MultiResult>)
    ensures res.Done? ==> |draws| > 0 && res.value.numToCheck == Roll(draws[0], 1, HalfUp(|boxes|))
    ensures res.Done? && 1 < HalfUp(|boxes|) ==> 1 <= res.value.numToCheck < HalfUp(|boxes|)
    ensures res.Done? && HalfUp(|boxes|) == 1 ==> res.value.numToCheck == 1
    ensures res.Done? ==>
              var m := res.value;
              && |m.checkedNow| == m.numToCheck
              && Distinct(m.checkedNow)
              && (forall k :: 0 <= k < |m.checkedNow| ==> m.checkedNow[k] < |boxes| && boxes[m.checkedNow[k]].displayed)
              && |m.boxes| == |boxes|
              && (forall i :: 0 <= i < |boxes| ==>
                    && (m.boxes[i].checked <==> i in m.checkedNow)
                    && m.boxes[i].displayed == boxes[i].displayed
                    && m.boxes[i].isOther == boxes[i].isOther
                    && m.boxes[i].text == (if i in m.checkedNow && boxes[i].isOther then "Dummy Data" else ClearedText(boxes[i])))
    ensures res.Done? ==> res.value.numToCheck <= |DisplayedSet(boxes)|
    ensures res.Crashed? ==> |boxes| == 0
  {
    if |draws| == 0 {
      return Starved;
    }
    var n := |boxes|;
    var numToCheck := Roll(draws[0], 1, HalfUp(n));
    var cur := ClearMChoice(boxes);
    var toBeChecked: seq<nat> := [];
    var k := 1;
    while |toBeChecked| < numToCheck
      invariant 1 <= k <= |draws|
      invariant |toBeChecked| <= numToCheck
      invariant |cur| == n
      invariant Distinct(toBeChecked)
      invariant forall j :: 0 <= j < |toBeChecked| ==> toBeChecked[j] < n && boxes[toBeChecked[j]].displayed
      invariant forall i :: 0 <= i < n ==>
                  && (cur[i].checked <==> i in toBeChecked)
                  && cur[i].displayed == boxes[i].displayed
                  && cur[i].isOther == boxes[i].isOther
                  && cur[i].text == (if i in toBeChecked && boxes[i].isOther then "Dummy Data" else ClearedText(boxes[i]))
      decreases |draws| - k
    {
      if k == |draws| {
        return Starved;
      }
      var r := Roll(draws[k], 0, n);
      k := k + 1;
      if n == 0 {
        return Crashed;
      }
      if !cur[r].checked && cur[r].displayed {
        var text := if cur[r].isOther then "Dummy Data" else cur[r].text;
        cur := cur[r := cur[r].(checked := true, text := text)];
        toBeChecked := toBeChecked + [r];
      }
    }
    DistinctWithin(toBeChecked, DisplayedSet(boxes));
    return Done(MultiResult(cur, toBeChecked, numToCheck), draws[k..]);
  }

  /** A duplicate-free list drawn from a set is no longer than the set. */
  lemma {:induction false} DistinctWithin(s: seq<nat>, pool: set<nat>)
    requires Distinct(s)
    requires forall k :: 0 <= k < |s| ==> s[k] in pool
    ensures |s| <= |pool|
    decreases |s|
  {
    if |s| > 0 {
      var last := s[|s| - 1];
      assert forall k :: 0 <= k < |s| - 1 ==> s[..|s| - 1][k] == s[k];
      DistinctWithin(s[..|s| - 1], pool - {last});
    }
  }
}

=== FILE: overrides.dfy ===
/**
 * The override store: `force` and `avoid` command markers scanned from the page, and their
 * merge with the table kept in session storage from earlier pages.
 */
module Overrides {
  import opened Wrappers
  import opened Text

  /** A question code mapped to its list of raw option values. */
  type Table = map<string, seq<string>>

  /** STH_COMMANDS: the two marker element names. */
  datatype Kind = Avoid | Force

  /** A `<force data-force="...">` or `<avoid data-avoid="...">` element, in document order. */
  datatype Marker = Marker(kind: Kind, payload: string)

  /** The command container: one table per kind, None (`null`) when no marker of that kind exists. */
  datatype Commands = Commands(avoid: Option<Table>, force: Option<Table>)

  function Get(c: Commands, k: Kind): Option<Table> {
    match k
    case Avoid => c.avoid
    case Force => c.force
  }

  function Put(c: Commands, k: Kind, t: Option<Table>): (r: Commands)
    ensures Get(r, k) == t
    ensures forall other :: other != k ==> Get(r, other) == Get(c, other)
  {
    match k
    case Avoid => c.(avoid := t)
    case Force => c.(force := t)
  }

  /**
   * `commands[kind] && commands[kind][code]`: the value list of `code`, if the table of that
   * kind exists and has the code (a present list is truthy even when empty).
   */
  function Lookup(c: Commands, k: Kind, code: string): (r: Option<seq<string>>)
    ensures r.Some? <==> Get(c, k).Some? && code in Get(c, k).value
    ensures r.Some? ==> r.value == Get(c, k).value[code]
  {
    match Get(c, k)
    case None => None
    case Some(t) => if code in t then Some(t[code]) else None
  }

  /**
   * One group of a payload: spaces dropped, split on ",", the first field is the question
   * code and the remaining fields are its values.
   */
  function ParseGroup(g: string): (entry: (string, seq<string>))
    ensures Join([entry.0] + entry.1, ",") == WithoutSpaces(g)
    ensures ' ' !in entry.0 && ',' !in entry.0
    ensures forall v :: v in entry.1 ==> ' ' !in v && ',' !in v
  {
    var fields := Split(RemoveSpaces(g), ',');
    assert [fields[0]] + fields[1..] == fields;
    assert forall v :: v in fields[1..] ==> exists i :: 0 <= i < |fields| && fields[i] == v;
    assert forall i :: 0 <= i < |fields| ==> ' ' !in fields[i];
    (fields[0], fields[1..])
  }

  /** An entry per group: its question code and its values. */
  type Entry = (string, seq<string>)

  /** The table built from entries in order, each assignment overwriting an earlier one. */
  function Collect(entries: seq<Entry>): (t: Table)
    ensures forall code :: code in t <==> exists i :: 0 <= i < |entries| && entries[i].0 == code
    ensures forall i :: 0 <= i < |entries| && LastWithCode(entries, i) ==> t[entries[i].0] == entries[i].1
    decreases |entries|
  {
    if |entries| == 0 then map[]
    else
      var n := |entries| - 1;
      var t := Collect(entries[..n]);
      CollectStep(entries, t);
      t[entries[n].0 := entries[n].1]
  }

  lemma CollectStep(entries: seq<Entry>, t: Table)
    requires |entries| > 0
    requires forall code :: code in t <==> exists i :: 0 <= i < |entries| - 1 && entries[i].0 == code
    requires forall i :: 0 <= i < |entries| - 1 && LastWithCode(entries[..|entries| - 1], i) ==>
               t[entries[i].0] == entries[i].1
    ensures var t' := t[entries[|entries| - 1].0 := entries[|entries| - 1].1];
            && (forall code :: code in t' <==> exists i :: 0 <= i < |entries| && entries[i].0 == code)
            && (forall i :: 0 <= i < |entries| && LastWithCode(entries, i) ==> t'[entries[i].0] == entries[i].1)
  {
    var n := |entries| - 1;
    forall i | 0 <= i < n && LastWithCode(entries, i)
      ensures LastWithCode(entries[..n], i)
    {
      assert forall j :: i < j < n ==> entries[..n][j] == entries[j];
    }
  }

  /** No later entry carries the code of entry `i`. */
  predicate LastWithCode(entries: seq<Entry>, i: int)
    requires 0 <= i < |entries|
  {
    forall j :: i < j < |entries| ==> entries[j].0 != entries[i].0
  }

  /** The groups of a payload, which are separated by "|", each parsed. */
  function Groups(payload: string): (es: seq<Entry>)
    ensures var groups := Split(payload, '|');
            |es| == |groups| && forall i :: 0 <= i < |groups| ==> es[i] == ParseGroup(groups[i])
  {
    var groups := Split(payload, '|');
    seq(|groups|, i requires 0 <= i < |groups| => ParseGroup(groups[i]))
  }

  /**
   * The table of one marker's payload: every group's code is a key, and each key holds the
   * values of the last group with that code.
   */
  function ParsePayload(payload: string): (t: Table)
    ensures var es := Groups(payload);
            && (forall code :: code in t <==> exists i :: 0 <= i < |es| && es[i].0 == code)
            && (forall i :: 0 <= i < |es| && LastWithCode(es, i) ==> t[es[i].0] == es[i].1)
  {
    Collect(Groups(payload))
  }

  /** A marker read: its kind and the table parsed from its payload. */
  type Read = (Kind, Table)

  /** Every marker read, in document order. */
  function ReadMarkers(markers: seq<Marker>): (rs: seq<Read>)
    ensures |rs| == |markers|
    ensures forall i :: 0 <= i < |markers| ==> rs[i] == (markers[i].kind, ParsePayload(markers[i].payload))
  {
    seq(|markers|, i requires 0 <= i < |markers| => (markers[i].kind, ParsePayload(markers[i].payload)))
  }

  /** The tables installed in order, a later one replacing its kind's whole table. */
  function Install(rs: seq<Read>): (c: Commands)
    ensures forall k :: Get(c, k).None? <==> forall i :: 0 <= i < |rs| ==> rs[i].0 != k
    ensures forall i :: 0 <= i < |rs| && LastOfKind(rs, i) ==> Get(c, rs[i].0) == Some(rs[i].1)
    decreases |rs|
  {
    if |rs| == 0 then Commands(None, None)
    else
      var n := |rs| - 1;
      var c := Install(rs[..n]);
      InstallStep(rs, c);
      Put(c, rs[n].0, Some(rs[n].1))
  }

  lemma InstallStep(rs: seq<Read>, c: Commands)
    requires |rs| > 0
    requires forall k :: Get(c, k).None? <==> forall i :: 0 <= i < |rs| - 1 ==> rs[i].0 != k
    requires forall i :: 0 <= i < |rs| - 1 && LastOfKind(rs[..|rs| - 1], i) ==> Get(c, rs[i].0) == Some(rs[i].1)
    ensures var c' := Put(c, rs[|rs| - 1].0, Some(rs[|rs| - 1].1));
            && (forall k :: Get(c', k).None? <==> forall i :: 0 <= i < |rs| ==> rs[i].0 != k)
            && (forall i :: 0 <= i < |rs| && LastOfKind(rs, i) ==> Get(c', rs[i].0) == Some(rs[i].1))
  {
    var n := |rs| - 1;
    forall i | 0 <= i < n && LastOfKind(rs, i)
      ensures LastOfKind(rs[..n], i)
    {
      assert forall j :: i < j < n ==> rs[..n][j] == rs[j];
    }
  }

  /** No later read has the kind of read `i`. */
  predicate LastOfKind(rs: seq<Read>, i: int)
    requires 0 <= i < |rs|
  {
    forall j :: i < j < |rs| ==> rs[j].0 != rs[i].0
  }

  /** What `queryCommands` leaves behind: the container and the `commandsFound` flag. */
  datatype Scan = Scan(commands: Commands, found: bool)

  /**
   * `queryCommands`: both kinds start out null; every marker replaces its kind's table, so
   * the last marker of a kind decides it; `commandsFound` is set iff there is a marker.
   */
  function QueryCommands(markers: seq<Marker>): (s: Scan)
    ensures s.found <==> |markers| > 0
    ensures forall k :: Get(s.commands, k).None? <==> forall i :: 0 <= i < |markers| ==> markers[i].kind != k
    ensures var rs := ReadMarkers(markers);
            forall i :: 0 <= i < |rs| && LastOfKind(rs, i) ==> Get(s.commands, markers[i].kind) == Some(rs[i].1)
  {
    Scan(Install(ReadMarkers(markers)), |markers| > 0)
  }

  /* ---------------------------------------------------------------------------------------
   * Merge with the stored table (lines 204-216 of initStorage).
   * ------------------------------------------------------------------------------------- */

  /** The TypeError the merge raises: a stored code is looked up in a scanned table that is null. */
  datatype MergeError = NullFreshTable(kind: Kind)

  /**
   * The merge of one kind AS WRITTEN: for every stored code, `!scanned[code]` is evaluated, which
   * throws when the scanned table is null; otherwise missing codes are copied in.
   */
  function MergeKindAsWritten(k: Kind, scanned: Option<Table>, stored: Option<Table>): (r: Result<Option<Table>, MergeError>)
    ensures r.Err? <==> scanned.None? && stored.Some? && stored.value != map[]
  {
    match stored
    case None => Ok(scanned)
    case Some(s) =>
      if s == map[] then Ok(scanned)
      else match scanned
        case None => Err(NullFreshTable(k))
        case Some(t) => Ok(Some(s + t))
  }

  /** The whole merge as written: kinds in stored order, avoid then force; the first error ends it. */
  function MergeAsWritten(scanned: Commands, stored: Commands): (r: Result<Commands, MergeError>)
    ensures r.Ok? ==> r.value == Merge(scanned, stored)
  {
    MergeAgreesWhereWrittenSucceeds(Avoid, scanned.avoid, stored.avoid);
    MergeAgreesWhereWrittenSucceeds(Force, scanned.force, stored.force);
    match MergeKindAsWritten(Avoid, scanned.avoid, stored.avoid)
    case Err(e) => Err(e)
    case Ok(a) =>
      match MergeKindAsWritten(Force, scanned.force, stored.force)
      case Err(e) => Err(e)
      case Ok(f) => Ok(Commands(a, f))
  }

  /** A page with only a `force` marker, after a page whose `avoid` table was stored, crashes the merge. */
  lemma MergeAsWrittenCrashes()
    ensures MergeAsWritten(Commands(None, Some(map["Q2" := ["1"]])),
                           Commands(Some(map["Q1" := ["3"]]), None)).Err?
  {
    assert "Q1" in map["Q1" := ["3"]];
  }

  /**
   * The merge of one kind as evidently intended: a missing scanned table counts as empty, so
   * the stored entries are carried forward. Agrees with the written merge wherever that one
   * does not throw.
   */
  function MergeKind(scanned: Option<Table>, stored: Option<Table>): (r: Option<Table>)
    ensures scanned.Some? ==> r.Some? && forall code :: code in scanned.value ==> code in r.value && r.value[code] == scanned.value[code]
    ensures stored.Some? && stored.value != map[] ==> r.Some?
    ensures stored.Some? ==> forall code :: code in stored.value ==> r.Some? && code in r.value
    ensures forall code :: r.Some? && code in r.value ==>
              (scanned.Some? && code in scanned.value) || (stored.Some? && code in stored.value && r.value[code] == stored.value[code])
    ensures scanned.None? && (stored.None? || stored.value == map[]) ==> r.None?
  {
    match stored
    case None => scanned
    case Some(s) =>
      match scanned
      case Some(t) => Some(s + t)
      case None => if s == map[] then None else Some(s)
  }

  /** The merge as intended, applied to both kinds. */
  function Merge(scanned: Commands, stored: Commands): Commands {
    Commands(MergeKind(scanned.avoid, stored.avoid), MergeKind(scanned.force, stored.force))
  }

  /** Where the written merge succeeds, it is the intended merge. */
  lemma MergeAgreesWhereWrittenSucceeds(k: Kind, scanned: Option<Table>, stored: Option<Table>)
    ensures MergeKindAsWritten(k, scanned, stored).Ok? ==> MergeKindAsWritten(k, scanned, stored).value == MergeKind(scanned, stored)
  {
    if stored.Some? && stored.value == map[] && scanned.Some? {
      assert stored.value + scanned.value == scanned.value;
    }
  }

  /** Merging a table with itself changes nothing. */
  lemma MergeIdempotent(c: Commands)
    ensures Merge(c, c) == c
  {
    if c.avoid.Some? { assert c.avoid.value + c.avoid.value == c.avoid.value; }
    if c.force.Some? { assert c.force.value + c.force.value == c.force.value; }
  }

  /** Merging the same scanned table again into an earlier merge result gives that result back. */
  lemma MergeAbsorbs(scanned: Commands, stored: Commands)
    ensures Merge(scanned, Merge(scanned, stored)) == Merge(scanned, stored)
  {
    MergeKindAbsorbs(scanned.avoid, stored.avoid);
    MergeKindAbsorbs(scanned.force, stored.force);
  }

  lemma MergeKindAbsorbs(scanned: Option<Table>, stored: Option<Table>)
    ensures MergeKind(scanned, MergeKind(scanned, stored)) == MergeKind(scanned, stored)
  {
    match (scanned, stored)
    case (Some(t), Some(s)) =>
      assert (s + t) + t == s + t;
    case (Some(t), None) =>
      assert t + t == t;
    case (None, _) =>
  }
}

=== FILE: random.dfy ===
/**
 * The script's only source of randomness, `roll(min, max)`, and the way the model feeds it.
 *
 * `Math.random()` is replaced by an explicit draw `u` in [0, 1). An operation that rolls
 * receives a finite prefix of the random stream and reports either its outcome together with
 * the draws it left unused, or that the prefix ran out before the script would have finished.
 * The rejection loops of the script have no bound; a prefix that runs out is how the model
 * states "still looping", so no retry limit is invented.
 */
module Random {

  /** One value of `Math.random()`. */
  type Unit = u: real | 0.0 <= u < 1.0

  /** What an operation fed with a prefix of the random stream comes to. */
  datatype Run<+T> =
    | Done(value: T, rest: seq<Unit>)  // finished, leaving `rest` unused
    | Starved                          // the prefix ran out: the script would still be rolling
    | Crashed                          // the script raises a TypeError (indexes a missing element)

  /** `x | 0` for a value far inside the 32-bit range: truncation toward zero. */
  function Trunc(x: real): int {
    if x >= 0.0 then x.Floor else -((-x).Floor)
  }

  /** `roll(min, max)`: the draw scaled to [min, max) and truncated. */
  function Roll(u: Unit, min: int, max: int): (r: int)
    ensures 0 <= min < max ==> min <= r < max
    ensures min == max ==> r == min
    ensures 0 <= min && 0 <= max ==> 0 <= r
  {
    ScaledWithin(u, min, max);
    ScaledNonNegative(u, min, max);
    Trunc(u * (max - min) as real + min as real)
  }

  lemma ScaledWithin(u: Unit, min: int, max: int)
    ensures 0 <= min < max ==> min <= Trunc(u * (max - min) as real + min as real) < max
  {
    if min < 0 || max <= min { return; }
    var d := (max - min) as real;
    ScaleBelow(u, d);
    var x := u * d + min as real;
    assert d + min as real == max as real;
    FloorWithin(x, min, max);
  }

  lemma ScaledNonNegative(u: Unit, min: int, max: int)
    ensures 0 <= min && 0 <= max ==> 0 <= Trunc(u * (max - min) as real + min as real)
  {
    if 0 <= min && 0 <= max {
      var x := u * (max - min) as real + min as real;
      if max < min {
        var d := (min - max) as real;
        ScaleBelow(u, d);
        assert u * (max - min) as real == -(u * d);
        assert x == min as real - u * d;
        assert d <= min as real;
      } else {
        assert 0.0 <= u * (max - min) as real;
      }
      assert 0.0 <= x;
    }
  }

  lemma FloorWithin(x: real, lo: int, hi: int)
    requires lo as real <= x < hi as real
    ensures lo <= x.Floor < hi
  {
    assert x.Floor as real <= x;
  }

  lemma ScaleBelow(u: Unit, d: real)
    requires d > 0.0
    ensures 0.0 <= u * d < d
  {
    assert (1.0 - u) * d > 0.0;
  }

  /** Every value of [min, max) is reached by some draw: `roll` can return any of them. */
  lemma RollCovers(min: int, max: int, k: int)
    requires 0 <= min <= k < max
    ensures exists u: Unit :: Roll(u, min, max) == k
  {
    var d := (max - min) as real;
    var u: real := (k - min) as real / d;
    assert u * d == (k - min) as real;
    assert 0.0 <= u < 1.0;
    assert Roll(u, min, max) == k;
  }

  /**
   * The 20% refusal rule of `generateNumericInput`: `roll(0, 100) < 20` holds exactly for the
   * draws below 0.2, a fifth of the unit interval.
   */
  lemma RefusalDraw(u: Unit)
    ensures Roll(u, 0, 100) < 20 <==> u < 0.2
  {
  }

  /**
   * The loop `while (bad(r)) { r = roll(0, n); }`: the first candidate, `r` or one of the
   * rolls, that `ok` accepts, or Starved when none of the given draws produces one.
   */
  function Resample(r: int, n: int, ok: int -> bool, draws: seq<Unit>): (res: Run<int>)
    ensures ok(r) ==> res == Done(r, draws)
    ensures !ok(r) ==> (res.Done? <==> exists k :: 0 <= k < |draws| && ok(Roll(draws[k], 0, n)))
    ensures !ok(r) && res.Done? ==>
              exists k :: 0 <= k < |draws| && res == Done(Roll(draws[k], 0, n), draws[k + 1..])
                          && (forall j :: 0 <= j < k ==> !ok(Roll(draws[j], 0, n)))
    ensures res.Done? ==> ok(res.value)
    ensures !res.Crashed?
    decreases |draws|
  {
    if ok(r) then Done(r, draws)
    else if |draws| == 0 then Starved
    else
      var res := Resample(Roll(draws[0], 0, n), n, ok, draws[1..]);
      assert forall k :: 0 <= k < |draws| - 1 ==> draws[1..][k] == draws[k + 1];
      assert forall k {:trigger draws[k + 2..]} :: 0 <= k < |draws| - 1 ==> draws[1..][k + 1..] == draws[k + 2..];
      res
  }
}

=== FILE: storage.dfy ===
/**
 * `initStorage`: the run flags kept in local storage, the question codes and attempt count
 * kept in session storage, and the override table carried across pages of one session.
 * The two storages are plain records passed in and returned; a missing item is None.
 */
module Storage {
  import opened Wrappers
  import opened Overrides

  /** localStorage items STH_active and STH_hidden. */
  datatype Local = Local(active: Option<string>, hidden: Option<string>)

  /**
   * sessionStorage items STH_qcode, STH_prev_qcode, STH_attempts (as the number `Number()`
   * reads from it) and STH_commands (as the object `JSON.parse` reads from it).
   */
  datatype Session = Session(
    qcode: Option<string>,
    prevQcode: Option<string>,
    attempts: Option<int>,
    commands: Option<Commands>)

  /** `flag ? "1" : "0"`: how a flag is written to storage. */
  function EncodeFlag(flag: bool): (s: string)
    ensures DecodeFlag(s) == flag
    ensures s != ""
  {
    if flag then "1" else "0"
  }

  /** `stored === "1"`: how a stored flag is read. */
  predicate DecodeFlag(s: string) {
    s == "1"
  }

  /**
   * Reading a flag at start-up: a non-empty stored string decides it; otherwise the flag keeps
   * its default `false` and "0" is written back.
   */
  function LoadFlag(stored: Option<string>): (r: (bool, Option<string>))
    ensures r.1.Some? && r.1.value != ""
    ensures r.0 == DecodeFlag(r.1.value)
    ensures stored.Some? && stored.value != "" ==> r.1 == stored
    ensures stored.None? || stored.value == "" ==> !r.0 && r.1 == Some("0")
  {
    match stored
    case Some(s) => if s != "" then (DecodeFlag(s), stored) else (false, Some(EncodeFlag(false)))
    case None => (false, Some(EncodeFlag(false)))
  }

  /** `sessionStorage.getItem("STH_qcode") || "Start"`: the code of the previous page. */
  function PreviousCode(session: Session): string {
    match session.qcode
    case Some(c) => if c != "" then c else "Start"
    case None => "Start"
  }

  /** The helper's state after `initStorage`, with both storages as they are left. */
  datatype Loaded = Loaded(
    active: bool,
    hidden: bool,
    attempts: int,
    commands: Commands,
    local: Local,
    session: Session)

  /**
   * `initStorage` for the page whose question code is `code`, after `queryCommands` produced
   * `scan`. The override tables are merged with the intended merge (see Overrides.Merge).
   */
  function InitStorage(code: string, scan: Scan, local: Local, session: Session): (r: Loaded)
    // the flags come from local storage, and local storage always holds them afterwards
    ensures r.local.active.Some? && r.active == DecodeFlag(r.local.active.value)
    ensures r.local.hidden.Some? && r.hidden == DecodeFlag(r.local.hidden.value)
    ensures local.active.Some? && local.active.value != "" ==> r.local.active == local.active
    ensures local.hidden.Some? && local.hidden.value != "" ==> r.local.hidden == local.hidden
    // the question codes move along
    ensures r.session.qcode == Some(code) && r.session.prevQcode == Some(PreviousCode(session))
    // a new question resets the attempt count; the same question keeps the stored count
    ensures PreviousCode(session) != code ==> r.attempts == 0 && r.session.attempts.None?
    ensures PreviousCode(session) == code ==> r.attempts == session.attempts.GetOr(0) && r.session.attempts == session.attempts
    // the override tables
    ensures session.commands.None? ==> r.commands == scan.commands && r.session.commands == Some(scan.commands)
    ensures session.commands.Some? && !scan.found ==> r.commands == session.commands.value && r.session.commands == session.commands
    ensures session.commands.Some? && scan.found ==>
              r.commands == Merge(scan.commands, session.commands.value) && r.session.commands == Some(r.commands)
    // wherever the merge as written in the script does not throw, the tables are what it computes
    ensures session.commands.Some? && scan.found && MergeAsWritten(scan.commands, session.commands.value).Ok? ==>
              r.commands == MergeAsWritten(scan.commands, session.commands.value).value
  {
    var (active, localActive) := LoadFlag(local.active);
    var (hidden, localHidden) := LoadFlag(local.hidden);
    var prev := PreviousCode(session);
    var (attempts, storedAttempts) :=
      if prev == code then (session.attempts.GetOr(0), session.attempts) else (0, None);
    var (commands, storedCommands) :=
      match session.commands
      case Some(stored) =>
        if scan.found then
          var merged := Merge(scan.commands, stored);
          (merged, Some(merged))
        else (stored, session.commands)
      case None => (scan.commands, Some(scan.commands));
    Loaded(active, hidden, attempts, commands,
           Local(localActive, localHidden),
           Session(Some(code), Some(prev), storedAttempts, storedCommands))
  }

  /** A flag written with EncodeFlag is read back unchanged on the next page. */
  lemma FlagSurvivesReload(active: bool, hidden: bool, code: string, scan: Scan, session: Session)
    ensures var r := InitStorage(code, scan, Local(Some(EncodeFlag(active)), Some(EncodeFlag(hidden))), session);
            r.active == active && r.hidden == hidden
  {
  }

  /**
   * Loading the same page again, with the storages the first load left, yields the same
   * flags, attempt count and override tables: nothing accumulates from reloading.
   */
  lemma ReloadIsStable(code: string, scan: Scan, local: Local, session: Session)
    ensures var r := InitStorage(code, scan, local, session);
            var r2 := InitStorage(code, scan, r.local, r.session);
            r2.active == r.active && r2.hidden == r.hidden && r2.attempts == r.attempts && r2.commands == r.commands
  {
    var r := InitStorage(code, scan, local, session);
    if session.commands.Some? && scan.found {
      MergeAbsorbs(scan.commands, session.commands.value);
    } else if session.commands.None? && scan.found {
      MergeIdempotent(scan.commands);
    }
  }
}

=== FILE: text.dfy ===
/**
 * The few string operations of JavaScript the helper script relies on, over `string`
 * (a sequence of Unicode characters). Every separator and keyword used is ASCII, so splitting
 * and matching agree with JavaScript's UTF-16 strings.
 */
module Text {

  /** `s.includes(pat)`: `pat` occurs in `s` as a contiguous run. */
  predicate Includes(s: string, pat: string) {
    exists i :: 0 <= i <= |s| && pat <= s[i..]
  }

  /** `toLowerCase()` on one code unit, for the ASCII letters. */
  function LowerChar(c: char): char {
    if 'A' <= c <= 'Z' then (c as int + 32) as char else c
  }

  /** `toLowerCase()` restricted to ASCII letters. */
  function Lower(s: string): (r: string)
    ensures |r| == |s|
    ensures forall i :: 0 <= i < |s| ==> r[i] == LowerChar(s[i])
  {
    seq(|s|, i requires 0 <= i < |s| => LowerChar(s[i]))
  }

  /** `parts.join(sep)`. */
  function Join(parts: seq<string>, sep: string): string {
    if |parts| == 0 then ""
    else if |parts| == 1 then parts[0]
    else parts[0] + sep + Join(parts[1..], sep)
  }

  /**
   * `s.split(sep)` for a one-character separator: the maximal runs between separators,
   * so there is always at least one part and "" splits into [""].
   */
  function Split(s: string, sep: char): (parts: seq<string>)
    ensures |parts| >= 1
    ensures forall i :: 0 <= i < |parts| ==> sep !in parts[i]
    ensures forall i, c :: 0 <= i < |parts| && c in parts[i] ==> c in s
    ensures Join(parts, [sep]) == s
    decreases |s|
  {
    if |s| == 0 then [""]
    else
      var tail := Split(s[1..], sep);
      assert forall c :: c in s[1..] ==> c in s;
      if s[0] == sep then
        JoinCons("", tail, [sep]);
        [""] + tail
      else
        JoinExtendHead([s[0]], tail, [sep]);
        [[s[0]] + tail[0]] + tail[1..]
  }

  lemma JoinCons(x: string, parts: seq<string>, sep: string)
    requires |parts| >= 1
    ensures Join([x] + parts, sep) == x + sep + Join(parts, sep)
  {
    assert ([x] + parts)[1..] == parts;
  }

  lemma JoinExtendHead(x: string, parts: seq<string>, sep: string)
    requires |parts| >= 1
    ensures Join([x + parts[0]] + parts[1..], sep) == x + Join(parts, sep)
  {
    var ps := [x + parts[0]] + parts[1..];
    if |parts| > 1 {
      assert ps[1..] == parts[1..];
    }
  }

  /** Splitting what was joined gives the parts back, when no part holds the separator. */
  lemma {:induction false} SplitJoin(parts: seq<string>, sep: char)
    requires |parts| >= 1
    requires forall i :: 0 <= i < |parts| ==> sep !in parts[i]
    ensures Split(Join(parts, [sep]), sep) == parts
    decreases |parts|, |parts[0]|
  {
    var s := Join(parts, [sep]);
    if |parts| == 1 {
      SplitNoSep(parts[0], sep);
    } else if |parts[0]| == 0 {
      assert s == [sep] + Join(parts[1..], [sep]);
      assert s[1..] == Join(parts[1..], [sep]);
      SplitJoin(parts[1..], sep);
      assert parts == [""] + parts[1..];
    } else {
      var shorter := [parts[0][1..]] + parts[1..];
      assert shorter[1..] == parts[1..];
      assert forall i :: 0 <= i < |shorter| ==> sep !in shorter[i] by {
        assert forall i :: 1 <= i < |shorter| ==> shorter[i] == parts[i];
        assert forall c :: c in parts[0][1..] ==> c in parts[0];
      }
      JoinExtendHead([parts[0][0]], shorter, [sep]);
      assert [parts[0][0]] + shorter[0] == parts[0];
      assert [[parts[0][0]] + shorter[0]] + shorter[1..] == parts;
      assert s == [parts[0][0]] + Join(shorter, [sep]);
      assert s[1..] == Join(shorter, [sep]);
      SplitJoin(shorter, sep);
      assert parts[0][0] != sep;
      assert parts == [[s[0]] + shorter[0]] + shorter[1..];
    }
  }

  lemma {:induction false} SplitNoSep(s: string, sep: char)
    requires sep !in s
    ensures Split(s, sep) == [s]
    decreases |s|
  {
    if |s| > 0 {
      assert forall c :: c in s[1..] ==> c in s;
      SplitNoSep(s[1..], sep);
      assert [s[0]] + s[1..] == s;
    }
  }

  /** `s` with every ASCII space taken out, the rest kept in order. */
  function WithoutSpaces(s: string): (r: string)
    ensures ' ' !in r
    ensures |r| <= |s|
    decreases |s|
  {
    if |s| == 0 then ""
    else if s[0] == ' ' then WithoutSpaces(s[1..])
    else [s[0]] + WithoutSpaces(s[1..])
  }

  /** `s.split(" ").join("")`: removes exactly the spaces. */
  function RemoveSpaces(s: string): (r: string)
    ensures r == WithoutSpaces(s)
  {
    SplitJoinEmpty(s);
    Join(Split(s, ' '), "")
  }

  lemma {:induction false} SplitJoinEmpty(s: string)
    ensures Join(Split(s, ' '), "") == WithoutSpaces(s)
    decreases |s|
  {
    if |s| > 0 {
      var tail := Split(s[1..], ' ');
      SplitJoinEmpty(s[1..]);
      if s[0] == ' ' {
        JoinCons("", tail, "");
      } else {
        JoinExtendHead([s[0]], tail, "");
      }
    }
  }

  predicate IsDigit(c: char) {
    '0' <= c <= '9'
  }

  predicate AllDigits(s: string) {
    forall i :: 0 <= i < |s| ==> IsDigit(s[i])
  }

  function DigitChar(d: nat): (c: char)
    requires d < 10
    ensures IsDigit(c)
  {
    ('0' as int + d) as char
  }

  /** The value of a run of decimal digits (the reading `Number(s)` gives it). */
  function DecimalValue(s: string): nat
    requires AllDigits(s)
  {
    if |s| == 0 then 0
    else DecimalValue(s[..|s| - 1]) * 10 + (s[|s| - 1] as int - '0' as int)
  }

  /** `String(n)` for a natural number: its decimal digits, without leading zeros. */
  function Decimal(n: nat): (s: string)
    ensures AllDigits(s)
    ensures 1 <= |s|
    ensures |s| > 1 ==> s[0] != '0'
    ensures n < 10 <==> |s| == 1
    ensures n < 100 ==> |s| <= 2
    decreases n
  {
    if n < 10 then [DigitChar(n)]
    else Decimal(n / 10) + [DigitChar(n % 10)]
  }

  lemma {:induction false} DecimalRoundTrip(n: nat)
    ensures DecimalValue(Decimal(n)) == n
    decreases n
  {
    if n >= 10 {
      var s := Decimal(n);
      assert s[..|s| - 1] == Decimal(n / 10);
      DecimalRoundTrip(n / 10);
    }
  }

  /** `String(n)` for any integer. */
  function Str(n: int): string {
    if n < 0 then "-" + Decimal(-n) else Decimal(n)
  }

  /** `s.padStart(2, "0")`. */
  function Pad2(s: string): (r: string)
    ensures |s| >= 2 ==> r == s
    ensures |s| < 2 ==> |r| == 2 && r[2 - |s|..] == s
    ensures AllDigits(s) ==> AllDigits(r) && DecimalValue(r) == DecimalValue(s)
    decreases 2 - |s|
  {
    if |s| >= 2 then s
    else
      var r := Pad2("0" + s);
      LeadingZero(s);
      r
  }

  /** A leading zero does not change the value of a digit run. */
  lemma {:induction false} LeadingZero(s: string)
    ensures AllDigits(s) ==> AllDigits("0" + s) && DecimalValue("0" + s) == DecimalValue(s)
    decreases |s|
  {
    if |s| > 0 && AllDigits(s) {
      var z := "0" + s;
      assert z[..|z| - 1] == "0" + s[..|s| - 1];
      LeadingZero(s[..|s| - 1]);
    }
  }
}

=== FILE: values.dfy ===
/**
 * The value generators of the responder: numbers by context for numeric inputs and for the
 * "other" text box of a radio list, and the time-stamped text for free-text questions.
 */
module Values {
  import opened Wrappers
  import opened Random
  import opened Text
  import opened Classifier

  /**
   * The moment the script was loaded (`new Date()` at start-up): `month` is `getMonth()`,
   * counting from 0.
   */
  datatype Clock = Clock(year: int, month: int, day: int, hours: int, minutes: int)

  /** The ranges `Date` guarantees for its components. */
  predicate ValidClock(c: Clock) {
    0 <= c.month < 12 && 1 <= c.day <= 31 && 0 <= c.hours < 24 && 0 <= c.minutes < 60
  }

  /** `validAgeYear`: the latest birth year of an adult. */
  function ValidAgeYear(c: Clock): int {
    c.year - 18
  }

  /** `String(v).padStart(2, "0")`. */
  function TwoDigits(v: int): string {
    Pad2(Str(v))
  }

  lemma TwoDigitsExact(v: int)
    requires 0 <= v < 100
    ensures |TwoDigits(v)| == 2 && AllDigits(TwoDigits(v)) && DecimalValue(TwoDigits(v)) == v
  {
    DecimalRoundTrip(v);
  }

  /** `getDateString`: "MM-DD HH:MM", each field zero-padded to two digits. */
  function GetDateString(c: Clock): (r: string)
    ensures ValidClock(c) ==>
              && |r| == 11 && r[2] == '-' && r[5] == ' ' && r[8] == ':'
              && AllDigits(r[0..2]) && DecimalValue(r[0..2]) == c.month + 1
              && AllDigits(r[3..5]) && DecimalValue(r[3..5]) == c.day
              && AllDigits(r[6..8]) && DecimalValue(r[6..8]) == c.hours
              && AllDigits(r[9..11]) && DecimalValue(r[9..11]) == c.minutes
  {
    var mm := TwoDigits(c.month + 1);
    var dd := TwoDigits(c.day);
    var hh := TwoDigits(c.hours);
    var mi := TwoDigits(c.minutes);
    var r := mm + "-" + dd + " " + hh + ":" + mi;
    if ValidClock(c) then
      TwoDigitsExact(c.month + 1);
      TwoDigitsExact(c.day);
      TwoDigitsExact(c.hours);
      TwoDigitsExact(c.minutes);
      StampFields(mm, dd, hh, mi);
      r
    else r
  }

  /** Where the four fields of a date string sit once each has two characters. */
  lemma StampFields(mm: string, dd: string, hh: string, mi: string)
    requires |mm| == 2 && |dd| == 2 && |hh| == 2 && |mi| == 2
    ensures var r := mm + "-" + dd + " " + hh + ":" + mi;
            && |r| == 11 && r[2] == '-' && r[5] == ' ' && r[8] == ':'
            && r[0..2] == mm && r[3..5] == dd && r[6..8] == hh && r[9..11] == mi
  {
    var r := mm + "-" + dd + " " + hh + ":" + mi;
    assert r[0..2] == mm;
    assert r[3..5] == dd;
    assert r[6..8] == hh;
    assert r[9..11] == mi;
  }

  /**
   * `"Run at: " + getDateString()`: what `enterSFTValue` writes into a short free-text field,
   * whatever the question says, and the default text of a radio option's "other" box.
   */
  function RunAtStamp(c: Clock): (r: string)
    ensures |r| >= 8 && r[..8] == "Run at: "
    ensures ValidClock(c) ==>
              && |r| == 19 && r[10] == '-' && r[13] == ' ' && r[16] == ':'
              && AllDigits(r[8..10]) && DecimalValue(r[8..10]) == c.month + 1
              && AllDigits(r[11..13]) && DecimalValue(r[11..13]) == c.day
              && AllDigits(r[14..16]) && DecimalValue(r[14..16]) == c.hours
              && AllDigits(r[17..19]) && DecimalValue(r[17..19]) == c.minutes
  {
    var prefix := "Run at: ";
    var d := GetDateString(c);
    StampShift(prefix, d);
    prefix + d
  }

  /** The characters of `d` sit eight places further on once "Run at: " is put in front. */
  lemma StampShift(prefix: string, d: string)
    requires prefix == "Run at: "
    ensures var r := prefix + d;
            && |r| == 8 + |d| && r[..8] == prefix
            && (|d| == 11 ==> r[8..10] == d[0..2] && r[11..13] == d[3..5]
                              && r[14..16] == d[6..8] && r[17..19] == d[9..11]
                              && r[10] == d[2] && r[13] == d[5] && r[16] == d[8])
  {
    var r := prefix + d;
    assert r[..8] == prefix;
    if |d| == 11 {
      assert r[8..10] == d[0..2];
      assert r[11..13] == d[3..5];
      assert r[14..16] == d[6..8];
      assert r[17..19] == d[9..11];
    }
  }

  /**
   * `generateNumericInput(min, max, refused)`: with a refusal code (`refused > -1`) one roll in
   * [0, 100) decides; below 20 gives the code, else a second roll gives a value in
   * [min, max). Without one, a single roll in [min, max).
   */
  function GenerateNumericInput(min: int, max: int, refused: int, draws: seq<Unit>): (r: Run<int>)
    ensures !r.Crashed?
    ensures r.Starved? <==> |draws| == 0 || (refused > -1 && |draws| == 1 && 0.2 <= draws[0])
    ensures refused > -1 && r.Done? && draws[0] < 0.2 ==> r.value == refused && r.rest == draws[1..]
    ensures r.Done? && (refused <= -1 || 0.2 <= draws[0]) && 0 <= min < max ==> min <= r.value < max
  {
    if |draws| == 0 then Starved
    else if refused > -1 then
      RefusalDraw(draws[0]);
      if Roll(draws[0], 0, 100) < 20 then Done(refused, draws[1..])
      else if |draws| == 1 then Starved
      else Done(Roll(draws[1], min, max), draws[2..])
    else Done(Roll(draws[0], min, max), draws[1..])
  }

  /**
   * `enterNumericValue`: the number written into the numeric field, chosen by `ctx`, the
   * context `getQuestionContext` gives the question text (Classifier.GetQuestionContext).
   * Scale has no case of its own and falls to the default with the quantities.
   */
  function EnterNumericValue(ctx: Option<Context>, clock: Clock, draws: seq<Unit>): (r: Run<int>)
    ensures !r.Crashed?
    ensures r.Done? && ctx in {Some(Age), Some(Percent)} ==> 18 <= r.value < 100
    ensures r.Done? && ctx == Some(Year) && 1910 < ValidAgeYear(clock) ==> 1910 <= r.value < ValidAgeYear(clock)
    ensures ctx == Some(ZipCode) ==> r == Done(90210, draws)
    ensures r.Done? && ctx == Some(YearRef) && 1910 < ValidAgeYear(clock) ==>
              r.value == 9999 || 1910 <= r.value < ValidAgeYear(clock)
    ensures r.Done? && ctx == Some(YearAL) && 1910 < ValidAgeYear(clock) ==>
              r.value == 0 || 1910 <= r.value < ValidAgeYear(clock)
    ensures r.Done? && ctx in {None, Some(Quantity), Some(Scale)} ==> 0 <= r.value < 20
    ensures r.Starved? <==> (|draws| == 0 && ctx != Some(ZipCode))
                            || (|draws| == 1 && ctx in {Some(YearRef), Some(YearAL)} && 0.2 <= draws[0])
  {
    var year := ValidAgeYear(clock);
    match ctx
    case Some(Age) => GenerateNumericInput(18, 100, -1, draws)
    case Some(Percent) => GenerateNumericInput(18, 100, -1, draws)
    case Some(Year) => GenerateNumericInput(1910, year, -1, draws)
    case Some(ZipCode) => Done(90210, draws)
    case Some(YearRef) => GenerateNumericInput(1910, year, 9999, draws)
    case Some(YearAL) => GenerateNumericInput(1910, year, 0, draws)
    case _ => if |draws| == 0 then Starved else Done(Roll(draws[0], 0, 20), draws[1..])
  }

  /**
   * The text put into the "other" box of the chosen radio option (lines 466-486): numbers as
   * their decimal strings, the zip code literally, and the stamp for any other context,
   * including the two year-with-refusal ones.
   */
  function OtherText(text: string, clock: Clock, draws: seq<Unit>): (r: Run<string>)
    ensures !r.Crashed?
    ensures r.Done? && GetQuestionContext(text) in {Some(Age), Some(Percent)} ==> 18 <= DigitRunValue(r.value) < 100
    ensures r.Done? && GetQuestionContext(text) == Some(Year) && 1910 < ValidAgeYear(clock) ==>
              1910 <= DigitRunValue(r.value) < ValidAgeYear(clock)
    ensures GetQuestionContext(text) == Some(ZipCode) ==> r == Done("90210", draws)
    ensures r.Done? && GetQuestionContext(text) == Some(Quantity) ==> 0 <= DigitRunValue(r.value) < 20
    ensures r.Done? && GetQuestionContext(text) == Some(Scale) ==> 0 <= DigitRunValue(r.value) < 100
    ensures GetQuestionContext(text) in {None, Some(YearRef), Some(YearAL)} ==> r == Done(RunAtStamp(clock), draws)
  {
    match GetQuestionContext(text)
    case Some(Age) => RolledText(18, 100, draws)
    case Some(Percent) => RolledText(18, 100, draws)
    case Some(Year) => RolledText(1910, ValidAgeYear(clock), draws)
    case Some(ZipCode) => Done("90210", draws)
    case Some(Quantity) => RolledText(0, 20, draws)
    case Some(Scale) => RolledText(0, 100, draws)
    case _ => Done(RunAtStamp(clock), draws)
  }

  /** `box.value = roll(min, max)`: the roll, as the decimal string the box then holds. */
  function RolledText(min: int, max: int, draws: seq<Unit>): (r: Run<string>)
    ensures r.Starved? <==> |draws| == 0
    ensures !r.Crashed?
    ensures r.Done? && 0 <= min < max ==> min <= DigitRunValue(r.value) < max && r.rest == draws[1..]
  {
    if |draws| == 0 then Starved
    else
      var v := Roll(draws[0], min, max);
      if 0 <= min < max then
        DecimalRoundTrip(v);
        Done(Str(v), draws[1..])
      else Done(Str(v), draws[1..])
  }

  /**
   * How a caller reads back a value this model writes into a box: the value of a non-empty
   * digit run, and -1 for anything else. It is a reading helper, not JavaScript's `Number`.
   */
  function DigitRunValue(s: string): int {
    if |s| > 0 && AllDigits(s) then DecimalValue(s) else -1
  }
}

=== FILE: wrappers.dfy ===
/** The optional value used wherever the helper script works with `null` or `undefined`. */
module Wrappers {

  datatype Option<+T> = None | Some(value: T) {

    /** The wrapped value, or `default` when there is none (JavaScript's `x || default`). */
    function GetOr(default: T): T {
      match this
      case Some(v) => v
      case None => default
    }
  }

  /** A value or the error that the script raises instead of producing it. */
  datatype Result<+T, +E> = Ok(value: T) | Err(error: E)
}
